=== FILE: README.md ===
# AI mock-interviewer: call session, transcript and question generation in Dafny

This project models the small amount of sequential logic in an AI
mock-interview web application:

- the **live-transcript grouping** of the voice-interview component, which
  merges consecutive same-speaker messages into display blocks joined by
  single spaces (`Transcript`);
- the **call session** of that component: its four call states
  (INACTIVE, CONNECTING, ACTIVE, FINISHED), the independent speaking flag,
  message intake from voice-SDK notifications, the Call and End buttons, the
  bulleted question list given to the interviewer, and the navigation
  decision taken once the call has finished (`CallSession`);
- the **interview-generation form**: its validation schema, its starting
  values, the request body built from accepted values and the submission flow
  with its busy flag (`InterviewForm`);
- the **question-generation endpoint**: shaping of the stored interview record
  (tech stack split on commas, fields copied, `finalized` set) and the 200/500
  envelope, plus the constant GET answer (`GenerateRoute`).

`Text` models JavaScript's `split` and `join` for a one-character separator;
`Wrappers` holds `Option`, `Result` and `Completion` (an awaited call that
either threw or returned a value).

The panel's grouping pushes copies of the stored messages and only changes
those copies, so the stored messages are never altered by display; in the model
messages are values and `Group` returns new ones, and `CallSession.Finalize`
shows that the ungrouped messages are what the finalization sends.

Everything outside the application is a parameter: the voice SDK appears only
as an input datatype of notifications and an output datatype of start/stop
requests; the feedback service, the transcript store, the document store, the
language model with `JSON.parse` of its text, and the PDF text extractor appear
as `Completion` or `bool` results passed in; the cover image and the creation
time are passed in as strings.

Behaviour of the code that the model keeps as written:

- The call-start and call-end handlers have no guard, so INACTIVE can go
  straight to ACTIVE or FINISHED; only the visible buttons follow
  INACTIVE → CONNECTING.
- `JSON.parse` of well-formed JSON that is not an array (say `42`) does not
  throw, so such a model answer is stored as the interview's questions with a
  200 answer; only text that is not JSON at all yields the 500 envelope.
  `ParsedJson.OtherJson` and `Questions.OtherValue` carry this case.
- The number of questions is accepted for any number in [1, 15], including
  non-whole numbers: the schema has no whole-number rule.
- The feedback and transcript calls are awaited one after the other; if the
  feedback call throws, the transcript call is never made and no navigation
  happens.

## Model

| member | source | states |
|---|---|---|
| Transcript.GroupMessages | components/Agent.tsx:217-226 | the panel's loop over the stored messages yields exactly `Group(messages)`, with no two neighbouring blocks by the same speaker and no more blocks than messages |
| Transcript.Group | components/Agent.tsx:217-226 | the blocks never outnumber the messages, are empty exactly for no messages, end with the last message's speaker and never place two blocks by the same speaker side by side |
| Transcript.GroupMergesRuns | components/Agent.tsx:219-226 | for any cut of the messages into maximal same-speaker runs, block k has run k's speaker and run k's texts, in order, joined by a single space |
| Transcript.RunsAreMaximal | components/Agent.tsx:219-226 | every message sequence has such a cut into maximal runs, so the grouping statement applies to every input |
| Transcript.GroupIsMergedRuns | components/Agent.tsx:219-226 | grouping equals merging the runs computed by `Runs` |
| Transcript.GroupRoles | components/Agent.tsx:219-226 | the blocks' speaker sequence is the messages' speaker sequence with consecutive repeats collapsed |
| Transcript.GroupOfAlternating | components/Agent.tsx:221-224 | messages whose neighbours never share a speaker are shown unchanged, one block each |
| Transcript.GroupIdempotent | components/Agent.tsx:217-226 | grouping the grouped blocks gives them back unchanged |
| Transcript.GroupExample | components/Agent.tsx:217-226 | a user "Hi" followed by assistant "Hello" and "how are you" is shown as the user block and one assistant block "Hello how are you" |
| CallSession.OnMessage | components/Agent.tsx:48-53 | a message is stored after all earlier ones exactly when it is a final transcript fragment; earlier messages, status and speaking flag are untouched, and other messages change nothing |
| CallSession.OnEvent | components/Agent.tsx:40-67 | call-start sets ACTIVE and call-end FINISHED from any state; speech-start/speech-end set the speaking flag without touching the status; errors change nothing |
| CallSession.HandleCall | components/Agent.tsx:120-146 | the Call button sets CONNECTING in any state and issues the start request for the page's call type |
| CallSession.HandleDisconnect | components/Agent.tsx:148-151 | the End button sets FINISHED in any state and issues a stop request |
| CallSession.Step | components/Agent.tsx:39-151 | exactly the two buttons issue SDK requests, the stop request only from End; Call does what `HandleCall` states (CONNECTING and the start request for the page's call type), End what `HandleDisconnect` states (FINISHED and a stop request); notifications go to their handlers |
| CallSession.FreshSession | components/Agent.tsx:35-37 | starting from INACTIVE, not speaking and no messages, after any inputs the messages are exactly the final fragments received, the status is the last one set (INACTIVE if none) and the speaking flag the last one set (off if none) |
| CallSession.RunMessages | components/Agent.tsx:48-53 | after any sequence of inputs the stored messages are the earlier ones followed by exactly the final transcript fragments, in arrival order, whatever the call status |
| CallSession.RunStatus | components/Agent.tsx:40-46 | after any sequence of inputs the status is the one set by the last status-setting input (button or call notification); speech, message and error inputs never affect it |
| CallSession.RunSpeaking | components/Agent.tsx:55-63 | after any sequence of inputs the speaking flag is the one set by the last speech notification |
| CallSession.FinishedFromAnywhere | components/Agent.tsx:44-46 | whatever happened before, a call-end notification or the End button leaves the call FINISHED |
| CallSession.StartCommand | components/Agent.tsx:123-145 | a "generate" page starts the workflow with user name, user id, job description and résumé text; any other page starts the interviewer with the formatted question list |
| CallSession.FormatQuestions | components/Agent.tsx:133-138 | absent questions and an empty list give ""; the text of a non-empty list begins with its first question bulleted "- " |
| CallSession.FormatQuestionsRoundTrip | components/Agent.tsx:133-138 | for a non-empty list of single-line questions the formatted text has one line per question, each the bulleted question, with one newline fewer than questions, and reading it back gives the questions |
| CallSession.FeedbackPath | components/Agent.tsx:104 | the review page is "/interview/", then the interview id as a template literal renders it ("undefined" when absent), then "/feedback"; it is an absolute path distinct from the home page "/" |
| CallSession.FeedbackPathKeyed | components/Agent.tsx:104 | two interviews share a review page only when their ids render the same, so the page is the interview's own |
| CallSession.Finalize | components/Agent.tsx:86-117 | nothing happens before FINISHED; a "generate" call goes to "/" without calling either service; otherwise the ungrouped messages go to the feedback service and, once it has answered, to the transcript store, and the review page is the target exactly when feedback succeeded with a non-empty id and the transcript was saved, "/" in every other case where both answered; if either service throws once the call is FINISHED on an interview page, no navigation happens |
| InterviewForm.AmountIssue | components/InterviewForm.tsx:39-45 | the number of questions is accepted exactly when it is a number in [1, 15]; otherwise the complaint is the one for unset, not-a-number, below minimum or above maximum |
| InterviewForm.TypeAccepted | components/InterviewForm.tsx:32-34 | a type is accepted exactly when it is technical, behavioral or mixed, and names that option |
| InterviewForm.LevelAccepted | components/InterviewForm.tsx:36-38 | a level is accepted exactly when it is junior, mid or senior, and names that option |
| InterviewForm.FieldIssuesNameBrokenRules | components/InterviewForm.tsx:28-38 | each non-number field has a complaint exactly when its rule is broken (empty text, no résumé, no valid type or level) |
| InterviewForm.IssuesNameBrokenRules | components/InterviewForm.tsx:28-46 | the complaints name exactly the rules the input breaks, including the number rule's one complaint |
| InterviewForm.Validate | components/InterviewForm.tsx:28-46 | the input is accepted exactly when job description, role and tech stack are non-empty, a résumé is present, type and level are among their options and the number is in [1, 15]; accepted values copy the input, rejected input reports every complaint |
| InterviewForm.DefaultsRejected | components/InterviewForm.tsx:56-61 | the starting values are rejected on every field except the number of questions, whose starting value 5 is in range |
| InterviewForm.MakePayload | components/InterviewForm.tsx:70-74 | the request body carries the accepted values unchanged plus the résumé text and the user id |
| InterviewForm.Submit | components/InterviewForm.tsx:64-98 | rejected input submits nothing; otherwise the busy flag is raised then lowered whatever happens, a body is sent exactly when the résumé was read, and "/" is shown exactly after an ok response with a JSON body |
| InterviewForm.SubmittedFormShapesRecord | components/InterviewForm.tsx:70-85 | a body sent by the form never fails on the tech stack, and the interview stored from it has the form's role, type, level and user and a tech stack that joins back to what was typed |
| Text.Split | app/api/vapi/generate/route.ts:48 | splitting on a character gives one more piece than there are separators, and no piece contains the separator |
| GenerateRoute.Post | app/api/vapi/generate/route.ts:7-63 | status 200 with success exactly when the model answered with JSON, the tech stack is a string and the store accepted the record, which is then the one kept; otherwise 500 with the error of the first step that threw and nothing kept; the record copies role, type, level and user id, sets `finalized`, and holds the parsed questions |
| GenerateRoute.TechstackRoundTrip | app/api/vapi/generate/route.ts:48 | the stored tech stack joins back with commas to the request's string, has one more piece than commas, and no piece holds a comma (pieces are not trimmed) |
| GenerateRoute.QuestionsAsGenerated | app/api/vapi/generate/route.ts:44-58 | a well-formed question array is stored as it came, with a 200 answer and `finalized` set |
| GenerateRoute.Get | app/api/vapi/generate/route.ts:65-67 | GET answers 200 with success and the data "Thank you!" |

## Left out

- Rendering, CSS classes and the visibility of the Call and End buttons: the Call button is only shown while the call is not ACTIVE, but the model lets both buttons act in every state, as the handlers themselves do.
- The trimming of block texts done only for display.
- Subscription and unsubscription of the SDK handlers, and React's re-running of the finalization effect whenever its dependencies change: `Finalize` models one run of the effect.
- The order in which concurrent state updates land; inputs are applied one at a time.
- The voice SDK's own behaviour, the feedback service, the transcript store, the document store, the language model and its prompt text, the PDF text extractor, `fetch` and page navigation: their results are parameters.
- The random cover image and the clock: passed in as strings.
- The workflow identifier and the base URL read from the environment.
- Console logging.
- An absent user id: the component passes `userId` on with a non-null assertion, so the model takes it to be a string; no decision of the component depends on it.
- A request body that is not JSON: the endpoint reads it before its error handler, so the framework's own error answer applies; the model starts from the decoded body.
- The serialisation of the endpoint's failure body: the handler puts the caught value into the JSON response, and serialising an `Error` gives `{}`, so the client cannot tell the failing steps apart; `RouteError` names the value caught, not what the client receives.
- JSON serialisation of the request body, including how the résumé file object is serialised.
- Fields of the endpoint's request other than the tech stack and the number of questions are taken to be strings, and the number of questions a number; only the tech stack's failure to be a string is modelled, because it is the only field the endpoint calls a string method on.
- Whole-number checks and floating-point detail of the question count: it is modelled as a real number.

=== FILE: call_session.dfy ===
/**
 * The voice-interview component: its call status and speaking flag as a
 * transition function over voice-SDK notifications and user actions, the
 * list of questions handed to the interviewer, and the decision taken
 * once a call has finished.
 */
module CallSession {
  import opened Wrappers
  import Text
  import opened Transcript

  /** The four call states. */
  datatype CallStatus = Inactive | Connecting | Active | Finished

  /** A `message` notification from the voice SDK. */
  datatype SdkMessage = SdkMessage(kind: string, transcriptType: string, role: Role, transcript: string)

  /** The notifications the component subscribes to. */
  datatype SdkEvent =
    | CallStart
    | CallEnd
    | Message(message: SdkMessage)
    | SpeechStart
    | SpeechEnd
    | Error(description: string)

  /** What can happen to a session: a notification, or the user pressing Call or End. */
  datatype Input = Notify(event: SdkEvent) | PressCall | PressEnd

  /** The component's state. */
  datatype Session = Session(status: CallStatus, speaking: bool, messages: seq<SavedMessage>)

  /** The state of a freshly shown component. */
  const Initial := Session(Inactive, false, [])

  /** What the page passes to the component; `callType` is the `type` prop. */
  datatype AgentProps = AgentProps(
    userName: string,
    userId: string,
    interviewId: Option<string>,
    feedbackId: Option<string>,
    callType: string,
    questions: Option<seq<string>>,
    jobDescription: string,
    resumeText: string)

  /** A request the component issues to the voice SDK. */
  datatype SdkCommand =
    | StartWorkflow(username: string, userid: string, jobDescription: string, resumeText: string)
    | StartInterviewer(questions: string)
    | Stop

  /** The new state and the SDK request issued along the way, if any. */
  datatype Transition = Transition(session: Session, command: Option<SdkCommand>)

  /** A message notification that carries a finished transcript fragment. */
  predicate IsFinalTranscript(m: SdkMessage) {
    m.kind == "transcript" && m.transcriptType == "final"
  }

  /** The stored form of a transcript fragment. */
  function Saved(m: SdkMessage): SavedMessage {
    SavedMessage(m.role, m.transcript)
  }

  // ---------------------------------------------------------------------
  // Question list handed to the interviewer.
  // ---------------------------------------------------------------------

  /** Each question prefixed by a dash and a space. */
  function Bullets(qs: seq<string>): (bs: seq<string>)
    ensures |bs| == |qs|
    ensures forall i :: 0 <= i < |qs| ==> bs[i] == "- " + qs[i]
  {
    seq(|qs|, i requires 0 <= i < |qs| => "- " + qs[i])
  }

  /** The `questions` variable: one bulleted question per line, or "" when there are none. */
  function FormatQuestions(questions: Option<seq<string>>): (r: string)
    ensures questions.None? || questions == Some([]) ==> r == ""
    // A non-empty list begins with its first question, bulleted.
    ensures questions.Some? && |questions.value| > 0 ==>
      |r| >= 2 + |questions.value[0]| && r[..2 + |questions.value[0]|] == "- " + questions.value[0]
  {
    match questions
    case None => ""
    case Some(qs) => Text.Join(Bullets(qs), '\n')
  }

  /** Reads a formatted list back: the lines, each without its two-character bullet. */
  function ParseQuestions(s: string): seq<string> {
    var lines := Text.Split(s, '\n');
    seq(|lines|, i requires 0 <= i < |lines| => if |lines[i]| >= 2 then lines[i][2..] else lines[i])
  }

  /**
   * A non-empty list of single-line questions survives formatting: the
   * formatted text has one line per question, each line is the bulleted
   * question, and reading it back gives the questions.
   */
  lemma FormatQuestionsRoundTrip(qs: seq<string>)
    requires |qs| > 0
    requires forall i :: 0 <= i < |qs| ==> '\n' !in qs[i]
    ensures Text.Split(FormatQuestions(Some(qs)), '\n') == Bullets(qs)
    ensures Text.Count(FormatQuestions(Some(qs)), '\n') == |qs| - 1
    ensures ParseQuestions(FormatQuestions(Some(qs))) == qs
  {
    var bs := Bullets(qs);
    forall i | 0 <= i < |bs|
      ensures '\n' !in bs[i]
    {
      assert bs[i] == "- " + qs[i];
    }
    Text.SplitOfJoin(bs, '\n');
    assert forall i :: 0 <= i < |bs| ==> bs[i][2..] == qs[i];
  }

  /** The start request for the page's call type. */
  function StartCommand(props: AgentProps): (c: SdkCommand)
    ensures props.callType == "generate" <==> c.StartWorkflow?
    ensures c.StartWorkflow? ==>
      c == StartWorkflow(props.userName, props.userId, props.jobDescription, props.resumeText)
    ensures props.callType != "generate" ==> c == StartInterviewer(FormatQuestions(props.questions))
  {
    if props.callType == "generate" then
      StartWorkflow(props.userName, props.userId, props.jobDescription, props.resumeText)
    else
      StartInterviewer(FormatQuestions(props.questions))
  }

  // ---------------------------------------------------------------------
  // Transitions.
  // ---------------------------------------------------------------------

  /**
   * The message handler: a final transcript fragment is stored after the
   * earlier messages; every other message leaves the session as it was.
   */
  function OnMessage(s: Session, m: SdkMessage): (s': Session)
    ensures s'.status == s.status && s'.speaking == s.speaking
    ensures |s'.messages| == |s.messages| + 1 <==> IsFinalTranscript(m)
    ensures |s'.messages| == |s.messages| <==> !IsFinalTranscript(m)
    ensures s'.messages[..|s.messages|] == s.messages
    ensures IsFinalTranscript(m) ==> s'.messages[|s.messages|] == Saved(m)
  {
    if IsFinalTranscript(m) then s.(messages := s.messages + [Saved(m)]) else s
  }

  /** The notification handlers registered with the voice SDK. */
  function OnEvent(s: Session, e: SdkEvent): (s': Session)
    // Call-start and call-end set the status whatever it was before.
    ensures e == CallStart ==> s' == s.(status := Active)
    ensures e == CallEnd ==> s' == s.(status := Finished)
    // Speech notifications only move the speaking flag.
    ensures e == SpeechStart ==> s' == s.(speaking := true)
    ensures e == SpeechEnd ==> s' == s.(speaking := false)
    // Messages only ever add to the stored messages.
    ensures e.Message? ==> s' == OnMessage(s, e.message)
    // Errors are only logged.
    ensures e.Error? ==> s' == s
  {
    match e
    case CallStart => s.(status := Active)
    case CallEnd => s.(status := Finished)
    case Message(m) => OnMessage(s, m)
    case SpeechStart => s.(speaking := true)
    case SpeechEnd => s.(speaking := false)
    case Error(_) => s
  }

  /** The Call button: move to CONNECTING and ask the SDK to start the call for this page. */
  function HandleCall(props: AgentProps, s: Session): (t: Transition)
    ensures t.session == s.(status := Connecting)
    ensures t.command == Some(StartCommand(props))
  {
    Transition(s.(status := Connecting), Some(StartCommand(props)))
  }

  /** The End button: move to FINISHED and ask the SDK to stop. */
  function HandleDisconnect(s: Session): (t: Transition)
    ensures t.session == s.(status := Finished)
    ensures t.command == Some(Stop)
  {
    Transition(s.(status := Finished), Some(Stop))
  }

  /** The effect of one input on the session. */
  function Step(props: AgentProps, s: Session, input: Input): (t: Transition)
    // Only the user's buttons issue SDK requests.
    ensures t.command.None? <==> input.Notify?
    ensures t.command == Some(Stop) <==> input == PressEnd
    ensures input.Notify? ==> t.session == OnEvent(s, input.event)
    // The buttons do what their handlers do.
    ensures input == PressCall ==> t == HandleCall(props, s)
    ensures input == PressEnd ==> t == HandleDisconnect(s)
  {
    match input
    case PressCall => HandleCall(props, s)
    case PressEnd => HandleDisconnect(s)
    case Notify(e) => Transition(OnEvent(s, e), None)
  }

  /** The session after the inputs `ins`, in order. */
  function Run(props: AgentProps, s: Session, ins: seq<Input>): Session {
    if |ins| == 0 then s else Step(props, Run(props, s, ins[..|ins| - 1]), ins[|ins| - 1]).session
  }

  /** The stored form of the final transcript fragments among `ins`, in arrival order. */
  function FinalTranscripts(ins: seq<Input>): seq<SavedMessage> {
    if |ins| == 0 then []
    else
      var i := ins[0];
      (if i.Notify? && i.event.Message? && IsFinalTranscript(i.event.message)
       then [Saved(i.event.message)] else [])
      + FinalTranscripts(ins[1..])
  }

  /** The status an input sets, if it sets one. */
  function StatusSetBy(i: Input): Option<CallStatus> {
    match i
    case PressCall => Some(Connecting)
    case PressEnd => Some(Finished)
    case Notify(CallStart) => Some(Active)
    case Notify(CallEnd) => Some(Finished)
    case Notify(_) => None
  }

  /** The speaking flag an input sets, if it sets one. */
  function SpeakingSetBy(i: Input): Option<bool> {
    match i
    case Notify(SpeechStart) => Some(true)
    case Notify(SpeechEnd) => Some(false)
    case _ => None
  }

  /** The status set by the last status-setting input of `ins`, or `current` when none does. */
  function LatestStatus(ins: seq<Input>, current: CallStatus): CallStatus {
    if |ins| == 0 then current
    else StatusSetBy(ins[|ins| - 1]).GetOr(LatestStatus(ins[..|ins| - 1], current))
  }

  /** The flag set by the last speech notification of `ins`, or `current` when there is none. */
  function LatestSpeaking(ins: seq<Input>, current: bool): bool {
    if |ins| == 0 then current
    else SpeakingSetBy(ins[|ins| - 1]).GetOr(LatestSpeaking(ins[..|ins| - 1], current))
  }

  /** The final transcripts of a sequence with one more input at its end. */
  lemma {:induction false} FinalTranscriptsSnoc(ins: seq<Input>, i: Input)
    ensures FinalTranscripts(ins + [i]) == FinalTranscripts(ins) + FinalTranscripts([i])
  {
    if |ins| > 0 {
      assert (ins + [i])[1..] == ins[1..] + [i];
      FinalTranscriptsSnoc(ins[1..], i);
    } else {
      assert ins + [i] == [i];
    }
  }

  /**
   * Over any run, the stored messages are the earlier ones followed by
   * exactly the final transcript fragments, in arrival order, whatever
   * the call status was when they arrived.
   */
  lemma {:induction false} RunMessages(props: AgentProps, s: Session, ins: seq<Input>)
    ensures Run(props, s, ins).messages == s.messages + FinalTranscripts(ins)
  {
    if |ins| > 0 {
      var prefix := ins[..|ins| - 1];
      var i := ins[|ins| - 1];
      var r := Run(props, s, prefix);
      RunMessages(props, s, prefix);
      StepMessages(props, r, i);
      FinalTranscriptsSnoc(prefix, i);
      assert prefix + [i] == ins;
      assert Run(props, s, ins) == Step(props, r, i).session;
    }
  }

  /** One input adds its final transcript fragment, if it is one, to the stored messages. */
  lemma StepMessages(props: AgentProps, s: Session, i: Input)
    ensures Step(props, s, i).session.messages == s.messages + FinalTranscripts([i])
  {
    assert [i][1..] == [];
  }

  /** The status after a run is the one set by the last status-setting input. */
  lemma {:induction false} RunStatus(props: AgentProps, s: Session, ins: seq<Input>)
    ensures Run(props, s, ins).status == LatestStatus(ins, s.status)
  {
    if |ins| > 0 {
      RunStatus(props, s, ins[..|ins| - 1]);
    }
  }

  /** The speaking flag after a run is the one set by the last speech notification. */
  lemma {:induction false} RunSpeaking(props: AgentProps, s: Session, ins: seq<Input>)
    ensures Run(props, s, ins).speaking == LatestSpeaking(ins, s.speaking)
  {
    if |ins| > 0 {
      RunSpeaking(props, s, ins[..|ins| - 1]);
    }
  }

  /**
   * A freshly shown component, whatever its inputs: the stored messages are
   * exactly the final transcript fragments received, the status is the one
   * set by the last status-setting input (INACTIVE if none), and the speaking
   * flag is the one set by the last speech notification (off if none).
   */
  lemma FreshSession(props: AgentProps, ins: seq<Input>)
    ensures Run(props, Initial, ins).messages == FinalTranscripts(ins)
    ensures Run(props, Initial, ins).status == LatestStatus(ins, Inactive)
    ensures Run(props, Initial, ins).speaking == LatestSpeaking(ins, false)
  {
    RunMessages(props, Initial, ins);
    RunStatus(props, Initial, ins);
    RunSpeaking(props, Initial, ins);
  }

  /** Whatever came before, a call-end notification or the End button finishes the call. */
  lemma FinishedFromAnywhere(props: AgentProps, s: Session, ins: seq<Input>, last: Input)
    requires last == Notify(CallEnd) || last == PressEnd
    ensures Run(props, s, ins + [last]).status == Finished
  {
    assert (ins + [last])[..|ins|] == ins;
  }

  // ---------------------------------------------------------------------
  // Finalization once the call has finished.
  // ---------------------------------------------------------------------

  /** What the feedback service returns. */
  datatype FeedbackResult = FeedbackResult(success: bool, feedbackId: Option<string>)

  /** The arguments of the feedback request. */
  datatype FeedbackRequest = FeedbackRequest(
    interviewId: Option<string>,
    userId: string,
    transcript: seq<SavedMessage>,
    feedbackId: Option<string>)

  /** The arguments of the transcript-saving request. */
  datatype TranscriptRequest = TranscriptRequest(
    interviewId: Option<string>,
    userId: string,
    transcript: seq<SavedMessage>)

  /** The requests made and the page navigated to, if any. */
  datatype Finalization = Finalization(
    feedbackCall: Option<FeedbackRequest>,
    transcriptCall: Option<TranscriptRequest>,
    target: Option<string>)

  /** A template literal's rendering of an optional string. */
  function Render(s: Option<string>): string {
    match s
    case Some(v) => v
    case None => "undefined"
  }

  /** The feedback-review page of an interview. */
  function FeedbackPath(interviewId: Option<string>): (p: string)
    ensures p != "/"
    ensures |p| > 0 && p[0] == '/'
    // The interview's own segment sits between the fixed prefix and suffix.
    ensures |p| >= 20 && p[..11] == "/interview/" && p[|p| - 9..] == "/feedback"
    ensures p[11..|p| - 9] == Render(interviewId)
  {
    "/interview/" + Render(interviewId) + "/feedback"
  }

  /** Interviews whose ids render differently have different review pages. */
  lemma FeedbackPathKeyed(a: Option<string>, b: Option<string>)
    requires FeedbackPath(a) == FeedbackPath(b)
    ensures Render(a) == Render(b)
  {
    var p := FeedbackPath(a);
    assert p[11..|p| - 9] == Render(a);
    assert p[11..|p| - 9] == Render(b);
  }

  /** JavaScript truthiness of an optional string: present and non-empty. */
  predicate Truthy(s: Option<string>) {
    s.Some? && |s.value| > 0
  }

  /**
   * The effect run on each status change, given how the two services
   * answered (`feedback`, then `saved`, each of which may throw).
   */
  function Finalize(props: AgentProps, s: Session, feedback: Completion<FeedbackResult>, saved: Completion<bool>)
    : (f: Finalization)
    // Nothing happens before the call has finished.
    ensures s.status != Finished ==> f == Finalization(None, None, None)
    // A question-generating call only returns to the home page.
    ensures s.status == Finished && props.callType == "generate" ==> f == Finalization(None, None, Some("/"))
    // Otherwise the stored (ungrouped) messages go to the feedback service,
    // and to the transcript store once the feedback service has answered.
    ensures s.status == Finished && props.callType != "generate" ==>
      && f.feedbackCall == Some(FeedbackRequest(props.interviewId, props.userId, s.messages, props.feedbackId))
      && (f.transcriptCall.Some? <==> feedback.Returned?)
      && (f.transcriptCall.Some? ==>
            f.transcriptCall.value == TranscriptRequest(props.interviewId, props.userId, s.messages))
    // The review page is reached exactly when both services succeeded with a feedback id.
    ensures f.target == Some(FeedbackPath(props.interviewId)) <==>
      && s.status == Finished
      && props.callType != "generate"
      && feedback.Returned? && feedback.value.success && Truthy(feedback.value.feedbackId)
      && saved == Returned(true)
    // The home page is the destination in every other case where both services answered.
    ensures f.target == Some("/") <==>
      && s.status == Finished
      && (props.callType == "generate"
          || (&& feedback.Returned? && saved.Returned?
              && !(feedback.value.success && Truthy(feedback.value.feedbackId) && saved.value)))
    // A service call that throws ends the effect before any navigation.
    ensures s.status == Finished && props.callType != "generate" && (feedback.Threw? || saved.Threw?) ==>
      f.target == None
  {
    if s.status != Finished then Finalization(None, None, None)
    else if props.callType == "generate" then Finalization(None, None, Some("/"))
    else
      var feedbackCall := Some(FeedbackRequest(props.interviewId, props.userId, s.messages, props.feedbackId));
      match feedback
      case Threw => Finalization(feedbackCall, None, None)
      case Returned(result) =>
        var transcriptCall := Some(TranscriptRequest(props.interviewId, props.userId, s.messages));
        match saved
        case Threw => Finalization(feedbackCall, transcriptCall, None)
        case Returned(transcriptSuccess) =>
          if result.success && Truthy(result.feedbackId) && transcriptSuccess then
            Finalization(feedbackCall, transcriptCall, Some(FeedbackPath(props.interviewId)))
          else
            Finalization(feedbackCall, transcriptCall, Some("/"))
  }
}

=== FILE: generate_route.dfy ===
/**
 * The question-generation endpoint: it asks the language model for
 * questions, shapes an interview record from the request and the parsed
 * answer, stores it, and answers with a success or failure envelope.
 * The model call, the parse of its text and the store are inputs.
 */
module GenerateRoute {
  import opened Wrappers
  import Text

  /** The decoded request body; `techstack` is absent when the body does not hold a string there. */
  datatype GenerateRequest = GenerateRequest(
    interviewType: string,
    role: string,
    level: string,
    techstack: Option<string>,
    amount: real,
    userid: string,
    jobDescription: string,
    resumeText: string)

  /** What `JSON.parse` makes of the model's text. */
  datatype ParsedJson =
    | Malformed                          // not JSON at all: the parse throws
    | StringArray(items: seq<string>)    // the array of questions asked for
    | OtherJson(source: string)          // well-formed JSON of another shape

  /** The `questions` field of a record: whatever the parse produced. */
  datatype Questions = QuestionList(items: seq<string>) | OtherValue(source: string)

  /** The stored interview. */
  datatype InterviewRecord = InterviewRecord(
    role: string,
    interviewType: string,
    level: string,
    techstack: seq<string>,
    questions: Questions,
    userId: string,
    finalized: bool,
    coverImage: string,
    createdAt: string)

  /**
   * Which step threw. This names the value the handler caught; what the
   * client receives after JSON serialisation of that value is not modelled.
   */
  datatype RouteError = ModelCallFailed | TechstackNotAString | ModelOutputNotJson | StoreFailed

  /** The JSON body of a response. */
  datatype Body = Body(success: bool, data: Option<string>, error: Option<RouteError>)

  /** An HTTP response. */
  datatype Response = Response(status: int, body: Body)

  /** The response of a POST and the record it stored, if any. */
  datatype PostResult = PostResult(response: Response, persisted: Option<InterviewRecord>)

  /** The success envelope. */
  const Ok := Response(200, Body(true, None, None))

  /** The failure envelope for the step that threw. */
  function Fail(e: RouteError): Response {
    Response(500, Body(false, None, Some(e)))
  }

  /** The record's `questions` for a parse that did not throw. */
  function QuestionsOf(p: ParsedJson): Questions
    requires !p.Malformed?
  {
    match p
    case StringArray(items) => QuestionList(items)
    case OtherJson(source) => OtherValue(source)
  }

  /**
   * POST: `generated` is how the model call ended and what its text
   * parses to, `stored` whether the store accepted the record; the cover
   * image and the creation time are supplied by the caller.
   */
  function Post(req: GenerateRequest, generated: Completion<ParsedJson>, stored: bool, coverImage: string, createdAt: string)
    : (r: PostResult)
    ensures r.response.status == 200 || r.response.status == 500
    ensures r.response.status == 200 <==> r.response.body.success
    ensures r.response.body.data == None
    ensures r.response.body.success <==> r.response.body.error == None
    // A record is kept exactly when the answer is a success.
    ensures r.persisted.Some? <==> r.response.status == 200
    // Success needs the model to answer with parseable text, a string tech
    // stack and the store to accept the record.
    ensures r.response.status == 200 <==>
      generated.Returned? && !generated.value.Malformed? && req.techstack.Some? && stored
    // The steps run in order: model call, tech-stack split, parse, store.
    ensures generated.Threw? ==> r.response == Fail(ModelCallFailed)
    ensures generated.Returned? && req.techstack.None? ==> r.response == Fail(TechstackNotAString)
    ensures generated.Returned? && req.techstack.Some? && generated.value.Malformed? ==>
      r.response == Fail(ModelOutputNotJson)
    ensures generated.Returned? && req.techstack.Some? && !generated.value.Malformed? && !stored ==>
      r.response == Fail(StoreFailed)
    // The stored record copies the request and the parsed questions.
    ensures r.persisted.Some? ==>
      var rec := r.persisted.value;
      && rec.role == req.role
      && rec.interviewType == req.interviewType
      && rec.level == req.level
      && rec.userId == req.userid
      && rec.finalized
      && rec.techstack == Text.Split(req.techstack.value, ',')
      && rec.questions == QuestionsOf(generated.value)
      && rec.coverImage == coverImage
      && rec.createdAt == createdAt
  {
    match generated
    case Threw => PostResult(Fail(ModelCallFailed), None)
    case Returned(parsed) =>
      match req.techstack
      case None => PostResult(Fail(TechstackNotAString), None)
      case Some(stack) =>
        if parsed.Malformed? then PostResult(Fail(ModelOutputNotJson), None)
        else
          var record := InterviewRecord(
            req.role, req.interviewType, req.level, Text.Split(stack, ','),
            QuestionsOf(parsed), req.userid, true, coverImage, createdAt);
          if stored then PostResult(Ok, Some(record)) else PostResult(Fail(StoreFailed), None)
  }

  /**
   * The stored tech stack is the request's string cut at every comma:
   * one more piece than there are commas, no piece holds a comma, pieces
   * are not trimmed, and joining them with commas gives back the string.
   */
  lemma TechstackRoundTrip(req: GenerateRequest, generated: Completion<ParsedJson>, stored: bool, coverImage: string, createdAt: string)
    requires Post(req, generated, stored, coverImage, createdAt).persisted.Some?
    ensures var stack := Post(req, generated, stored, coverImage, createdAt).persisted.value.techstack;
      && Text.Join(stack, ',') == req.techstack.value
      && |stack| == Text.Count(req.techstack.value, ',') + 1
      && (forall k :: 0 <= k < |stack| ==> ',' !in stack[k])
  {
    Text.JoinOfSplit(req.techstack.value, ',');
  }

  /** A well-formed list of questions is stored as it came, whatever its length. */
  lemma QuestionsAsGenerated(req: GenerateRequest, qs: seq<string>, coverImage: string, createdAt: string)
    requires req.techstack.Some?
    ensures var r := Post(req, Returned(StringArray(qs)), true, coverImage, createdAt);
      && r.response == Ok
      && r.persisted.Some?
      && r.persisted.value.questions == QuestionList(qs)
      && r.persisted.value.finalized
  {
  }

  /** GET: a fixed acknowledgement. */
  function Get(): (r: Response)
    ensures r.status == 200 && r.body.success && r.body.data == Some("Thank you!") && r.body.error == None
  {
    Response(200, Body(true, Some("Thank you!"), None))
  }
}

=== FILE: interview_form.dfy ===
/**
 * The interview-generation form: the schema its fields must satisfy, its
 * starting values, the request body built from accepted values, and the
 * submission flow with its busy flag.
 */
module InterviewForm {
  import opened Wrappers
  import Text
  import GenerateRoute

  datatype InterviewType = Technical | Behavioral | Mixed
  datatype Level = Junior | Mid | Senior

  /** The number field: unset, not a number, or a number (not necessarily whole). */
  datatype Amount = Missing | NotANumber | Num(value: real)

  /** The uploaded résumé. */
  datatype PdfFile = PdfFile(name: string)

  /** The fields as entered; the two selects are absent until something is chosen. */
  datatype FormInput = FormInput(
    jobDescription: string,
    resume: Option<PdfFile>,
    role: string,
    interviewType: Option<string>,
    techstack: string,
    level: Option<string>,
    amount: Amount)

  /** The fields once the schema has accepted them. */
  datatype FormValues = FormValues(
    jobDescription: string,
    resume: PdfFile,
    role: string,
    interviewType: InterviewType,
    techstack: string,
    level: Level,
    amount: real)

  /** The schema's messages, one per rule. */
  datatype FieldError =
    | JobDescriptionRequired
    | ResumeRequired
    | RoleRequired
    | TypeNotSelected
    | TechstackRequired
    | LevelNotSelected
    | AmountRequired
    | AmountNotANumber
    | AmountBelowMinimum
    | AmountAboveMaximum

  /** The option values of the type select. */
  function TypeName(t: InterviewType): string {
    match t
    case Technical => "technical"
    case Behavioral => "behavioral"
    case Mixed => "mixed"
  }

  /** The option values of the level select. */
  function LevelName(l: Level): string {
    match l
    case Junior => "junior"
    case Mid => "mid"
    case Senior => "senior"
  }

  /** The type enumeration of the schema. */
  function ParseType(s: string): Option<InterviewType> {
    if s == "technical" then Some(Technical)
    else if s == "behavioral" then Some(Behavioral)
    else if s == "mixed" then Some(Mixed)
    else None
  }

  /** The level enumeration of the schema. */
  function ParseLevel(s: string): Option<Level> {
    if s == "junior" then Some(Junior)
    else if s == "mid" then Some(Mid)
    else if s == "senior" then Some(Senior)
    else None
  }

  /** A type is accepted exactly when it is one of the three option values, and names that option. */
  lemma TypeAccepted(s: string, t: InterviewType)
    ensures ParseType(s) == Some(t) <==> s == TypeName(t)
    ensures ParseType(s).Some? <==> s in {"technical", "behavioral", "mixed"}
  {
  }

  /** A level is accepted exactly when it is one of the three option values, and names that option. */
  lemma LevelAccepted(s: string, l: Level)
    ensures ParseLevel(s) == Some(l) <==> s == LevelName(l)
    ensures ParseLevel(s).Some? <==> s in {"junior", "mid", "senior"}
  {
  }

  /** The number rule's complaint, if any. */
  function AmountIssue(a: Amount): (e: Option<FieldError>)
    ensures e == None <==> a.Num? && 1.0 <= a.value <= 15.0
    ensures a == Missing ==> e == Some(AmountRequired)
    ensures a == NotANumber ==> e == Some(AmountNotANumber)
    ensures a.Num? && a.value < 1.0 ==> e == Some(AmountBelowMinimum)
    ensures a.Num? && a.value > 15.0 ==> e == Some(AmountAboveMaximum)
  {
    match a
    case Missing => Some(AmountRequired)
    case NotANumber => Some(AmountNotANumber)
    case Num(v) =>
      if v < 1.0 then Some(AmountBelowMinimum)
      else if v > 15.0 then Some(AmountAboveMaximum)
      else None
  }

  /** `[e]` when `bad`, otherwise the empty list. */
  function When(bad: bool, e: FieldError): seq<FieldError> {
    if bad then [e] else []
  }

  /** The number rule's complaints. */
  predicate IsAmountError(e: FieldError) {
    e.AmountRequired? || e.AmountNotANumber? || e.AmountBelowMinimum? || e.AmountAboveMaximum?
  }

  /** The complaints about the text fields, the résumé and the two selects, in field order. */
  function FieldIssues(input: FormInput): seq<FieldError> {
    When(input.jobDescription == "", JobDescriptionRequired)
    + When(input.resume.None?, ResumeRequired)
    + When(input.role == "", RoleRequired)
    + When(input.interviewType.None? || ParseType(input.interviewType.value).None?, TypeNotSelected)
    + When(input.techstack == "", TechstackRequired)
    + When(input.level.None? || ParseLevel(input.level.value).None?, LevelNotSelected)
  }

  /** Every rule the input breaks, in the schema's field order. */
  function Issues(input: FormInput): seq<FieldError> {
    FieldIssues(input) + (match AmountIssue(input.amount) case Some(e) => [e] case None => [])
  }

  /** The complaints about the fields other than the number name exactly the rules those fields break. */
  lemma FieldIssuesNameBrokenRules(input: FormInput)
    ensures var es := FieldIssues(input);
      && (JobDescriptionRequired in es <==> input.jobDescription == "")
      && (ResumeRequired in es <==> input.resume.None?)
      && (RoleRequired in es <==> input.role == "")
      && (TypeNotSelected in es <==> input.interviewType.None? || ParseType(input.interviewType.value).None?)
      && (TechstackRequired in es <==> input.techstack == "")
      && (LevelNotSelected in es <==> input.level.None? || ParseLevel(input.level.value).None?)
      && (forall e :: e in es ==> !IsAmountError(e))
  {
    var p1 := When(input.jobDescription == "", JobDescriptionRequired);
    var p2 := When(input.resume.None?, ResumeRequired);
    var p3 := When(input.role == "", RoleRequired);
    var p4 := When(input.interviewType.None? || ParseType(input.interviewType.value).None?, TypeNotSelected);
    var p5 := When(input.techstack == "", TechstackRequired);
    var p6 := When(input.level.None? || ParseLevel(input.level.value).None?, LevelNotSelected);
    assert FieldIssues(input) == p1 + p2 + p3 + p4 + p5 + p6;
    assert forall e :: e in FieldIssues(input) <==> e in p1 || e in p2 || e in p3 || e in p4 || e in p5 || e in p6;
  }

  /**
   * The complaints name exactly the rules the input breaks, and there are
   * none exactly when every field is acceptable.
   */
  lemma IssuesNameBrokenRules(input: FormInput)
    ensures var es := Issues(input);
      && (JobDescriptionRequired in es <==> input.jobDescription == "")
      && (ResumeRequired in es <==> input.resume.None?)
      && (RoleRequired in es <==> input.role == "")
      && (TypeNotSelected in es <==> input.interviewType.None? || ParseType(input.interviewType.value).None?)
      && (TechstackRequired in es <==> input.techstack == "")
      && (LevelNotSelected in es <==> input.level.None? || ParseLevel(input.level.value).None?)
      && (forall e :: e in es && IsAmountError(e) ==> AmountIssue(input.amount) == Some(e))
      && (AmountIssue(input.amount).Some? ==> AmountIssue(input.amount).value in es)
  {
    FieldIssuesNameBrokenRules(input);
    var fs := FieldIssues(input);
    var am := match AmountIssue(input.amount) case Some(e) => [e] case None => [];
    assert Issues(input) == fs + am;
    assert forall e :: e in Issues(input) <==> e in fs || e in am;
  }

  /** The schema: the accepted values, or every rule broken. */
  function Validate(input: FormInput): (r: Result<FormValues, seq<FieldError>>)
    ensures r.Success? <==>
      && |input.jobDescription| > 0
      && input.resume.Some?
      && |input.role| > 0
      && input.interviewType.Some? && input.interviewType.value in {"technical", "behavioral", "mixed"}
      && |input.techstack| > 0
      && input.level.Some? && input.level.value in {"junior", "mid", "senior"}
      && input.amount.Num? && 1.0 <= input.amount.value <= 15.0
    ensures r.Failure? ==> r.error == Issues(input) && |r.error| > 0
    ensures r.Success? ==>
      && r.value.jobDescription == input.jobDescription
      && Some(r.value.resume) == input.resume
      && r.value.role == input.role
      && Some(TypeName(r.value.interviewType)) == input.interviewType
      && r.value.techstack == input.techstack
      && Some(LevelName(r.value.level)) == input.level
      && Num(r.value.amount) == input.amount
  {
    var es := Issues(input);
    if |es| > 0 then Failure(es)
    else
      assert input.interviewType.Some? && input.level.Some? && input.resume.Some?;
      var t := ParseType(input.interviewType.value).value;
      var l := ParseLevel(input.level.value).value;
      TypeAccepted(input.interviewType.value, t);
      LevelAccepted(input.level.value, l);
      Success(FormValues(
        input.jobDescription, input.resume.value, input.role, t,
        input.techstack, l, input.amount.value))
  }

  /** The form's starting values. */
  const Defaults := FormInput("", None, "", None, "", None, Num(5.0))

  /**
   * The starting values are rejected on every field except the number of
   * questions, whose starting value is within range.
   */
  lemma DefaultsRejected()
    ensures Validate(Defaults).Failure?
    ensures AmountIssue(Defaults.amount) == None
    ensures Validate(Defaults).error
      == [JobDescriptionRequired, ResumeRequired, RoleRequired, TypeNotSelected, TechstackRequired, LevelNotSelected]
  {
  }

  // ---------------------------------------------------------------------
  // Submission.
  // ---------------------------------------------------------------------

  /** The request body: the accepted values plus the résumé text and the user id. */
  datatype Payload = Payload(
    jobDescription: string,
    resume: PdfFile,
    role: string,
    interviewType: InterviewType,
    techstack: string,
    level: Level,
    amount: real,
    resumeText: string,
    userid: string)

  /** The accepted values a request body carries. */
  function ValuesOf(p: Payload): FormValues {
    FormValues(p.jobDescription, p.resume, p.role, p.interviewType, p.techstack, p.level, p.amount)
  }

  /** Spreads the accepted values and adds the two extra fields. */
  function MakePayload(data: FormValues, resumeText: string, userId: string): (p: Payload)
    ensures ValuesOf(p) == data
    ensures p.resumeText == resumeText && p.userid == userId
  {
    Payload(data.jobDescription, data.resume, data.role, data.interviewType,
            data.techstack, data.level, data.amount, resumeText, userId)
  }

  /** How the request to the endpoint ended: it threw, or a response came back. */
  datatype FetchOutcome = FetchThrew | Responded(ok: bool, bodyIsJson: bool)

  /** The values the busy flag took, the body sent, and the page navigated to. */
  datatype Submission = Submission(busy: seq<bool>, sent: Option<Payload>, navigation: Option<string>)

  /**
   * Submitting the form: nothing happens unless the schema accepts the
   * input; otherwise the résumé is read (`extracted`), the body is posted
   * and the home page is shown only after an ok response with a JSON body.
   */
  function Submit(input: FormInput, userId: string, extracted: Completion<string>, fetch: FetchOutcome)
    : (r: Submission)
    ensures Validate(input).Failure? ==> r == Submission([], None, None)
    // The busy flag is raised first and lowered last, whatever the outcome.
    ensures Validate(input).Success? ==> r.busy == [true, false]
    ensures r.sent.Some? <==> Validate(input).Success? && extracted.Returned?
    ensures r.sent.Some? ==> r.sent.value == MakePayload(Validate(input).value, extracted.value, userId)
    ensures r.navigation.Some? ==> r.navigation.value == "/"
    ensures r.navigation.Some? <==> r.sent.Some? && fetch.Responded? && fetch.ok && fetch.bodyIsJson
  {
    match Validate(input)
    case Failure(_) => Submission([], None, None)
    case Success(data) =>
      match extracted
      case Threw => Submission([true, false], None, None)
      case Returned(text) =>
        var payload := MakePayload(data, text, userId);
        var navigation :=
          match fetch
          case FetchThrew => None
          case Responded(ok, json) => if ok && json then Some("/") else None;
        Submission([true, false], Some(payload), navigation)
  }

  /** The endpoint's view of a request body. */
  function ToRequest(p: Payload): GenerateRoute.GenerateRequest {
    GenerateRoute.GenerateRequest(
      TypeName(p.interviewType), p.role, LevelName(p.level), Some(p.techstack),
      p.amount, p.userid, p.jobDescription, p.resumeText)
  }

  /**
   * A body sent by the form never fails on the tech stack, and the
   * interview stored from it has the form's role, type, level and user,
   * with a tech stack that joins back to what was typed.
   */
  lemma SubmittedFormShapesRecord(
    input: FormInput, userId: string, extracted: Completion<string>, fetch: FetchOutcome,
    generated: Completion<GenerateRoute.ParsedJson>, stored: bool, coverImage: string, createdAt: string)
    requires Submit(input, userId, extracted, fetch).sent.Some?
    ensures var req := ToRequest(Submit(input, userId, extracted, fetch).sent.value);
      var r := GenerateRoute.Post(req, generated, stored, coverImage, createdAt);
      && r.response.body.error != Some(GenerateRoute.TechstackNotAString)
      && (r.persisted.Some? ==>
            && r.persisted.value.role == input.role
            && Some(r.persisted.value.interviewType) == input.interviewType
            && Some(r.persisted.value.level) == input.level
            && r.persisted.value.userId == userId
            && Text.Join(r.persisted.value.techstack, ',') == input.techstack)
  {
    var req := ToRequest(Submit(input, userId, extracted, fetch).sent.value);
    if GenerateRoute.Post(req, generated, stored, coverImage, createdAt).persisted.Some? {
      GenerateRoute.TechstackRoundTrip(req, generated, stored, coverImage, createdAt);
    }
  }
}

=== FILE: text.dfy ===
/**
 * The two string operations the application relies on, for a one-character
 * separator: `String.prototype.split` and `Array.prototype.join`.
 */
module Text {

  /** Number of occurrences of `c` in `s`. */
  function Count(s: string, c: char): nat {
    if |s| == 0 then 0 else (if s[0] == c then 1 else 0) + Count(s[1..], c)
  }

  /**
   * `s.split(sep)`: the maximal separator-free pieces of `s`, in order.
   * As in JavaScript, the empty string splits into one empty piece and
   * adjacent separators produce empty pieces; nothing is trimmed.
   */
  function Split(s: string, sep: char): (parts: seq<string>)
    ensures |parts| == Count(s, sep) + 1
    ensures forall k :: 0 <= k < |parts| ==> sep !in parts[k]
  {
    if |s| == 0 then [""]
    else if s[0] == sep then [""] + Split(s[1..], sep)
    else
      var rest := Split(s[1..], sep);
      [[s[0]] + rest[0]] + rest[1..]
  }

  /** `parts.join(sep)`: the pieces with one separator between neighbours. */
  function Join(parts: seq<string>, sep: char): string {
    if |parts| == 0 then ""
    else if |parts| == 1 then parts[0]
    else parts[0] + [sep] + Join(parts[1..], sep)
  }

  /** Extending the first piece of a list extends the joined string at the front. */
  lemma JoinExtendFirst(x: char, p: string, ps: seq<string>, sep: char)
    ensures Join([[x] + p] + ps, sep) == [x] + Join([p] + ps, sep)
  {
    if |ps| > 0 {
      assert ([[x] + p] + ps)[1..] == ps;
      assert ([p] + ps)[1..] == ps;
    }
  }

  /** Appending one piece to a non-empty list appends a separator and the piece. */
  lemma {:induction false} JoinSnoc(parts: seq<string>, x: string, sep: char)
    requires |parts| > 0
    ensures Join(parts + [x], sep) == Join(parts, sep) + [sep] + x
  {
    if |parts| == 1 {
      assert (parts + [x])[1..] == [x];
    } else {
      assert (parts + [x])[1..] == parts[1..] + [x];
      JoinSnoc(parts[1..], x, sep);
    }
  }

  /** Joining the pieces of a split gives back the original string. */
  lemma {:induction false} JoinOfSplit(s: string, sep: char)
    ensures Join(Split(s, sep), sep) == s
  {
    if |s| == 0 {
    } else if s[0] == sep {
      var rest := Split(s[1..], sep);
      JoinOfSplit(s[1..], sep);
      assert ([""] + rest)[1..] == rest;
      assert s == [sep] + s[1..];
    } else {
      var rest := Split(s[1..], sep);
      JoinOfSplit(s[1..], sep);
      JoinExtendFirst(s[0], rest[0], rest[1..], sep);
      assert [rest[0]] + rest[1..] == rest;
      assert s == [s[0]] + s[1..];
    }
  }

  /** A string without the separator is a single piece. */
  lemma {:induction false} SplitWithoutSeparator(a: string, sep: char)
    requires sep !in a
    ensures Split(a, sep) == [a]
  {
    if |a| > 0 {
      SplitWithoutSeparator(a[1..], sep);
      assert [a[0]] + a[1..] == a;
    }
  }

  /** A separator-free prefix followed by a separator becomes the first piece. */
  lemma {:induction false} SplitAfterPiece(a: string, b: string, sep: char)
    requires sep !in a
    ensures Split(a + [sep] + b, sep) == [a] + Split(b, sep)
  {
    var s := a + [sep] + b;
    if |a| == 0 {
      assert s[1..] == b;
    } else {
      assert s[1..] == a[1..] + [sep] + b;
      SplitAfterPiece(a[1..], b, sep);
      assert [a[0]] + a[1..] == a;
    }
  }

  /** Splitting a join of separator-free pieces gives back the pieces. */
  lemma {:induction false} SplitOfJoin(parts: seq<string>, sep: char)
    requires |parts| > 0
    requires forall k :: 0 <= k < |parts| ==> sep !in parts[k]
    ensures Split(Join(parts, sep), sep) == parts
  {
    if |parts| == 1 {
      SplitWithoutSeparator(parts[0], sep);
    } else {
      SplitOfJoin(parts[1..], sep);
      SplitAfterPiece(parts[0], Join(parts[1..], sep), sep);
      assert [parts[0]] + parts[1..] == parts;
    }
  }
}

=== FILE: transcript.dfy ===
/**
 * Transcript messages and the grouping the live-transcript panel applies
 * before display: consecutive messages from the same speaker become one
 * block whose text is theirs joined by single spaces.
 */
module Transcript {
  import Text

  /** The speaker of a transcript fragment. */
  datatype Role = User | System | Assistant

  /** One stored utterance. */
  datatype SavedMessage = SavedMessage(role: Role, content: string)

  /** No two neighbouring messages have the same speaker. */
  predicate NoAdjacentSameRole(ms: seq<SavedMessage>) {
    forall i :: 0 <= i < |ms| - 1 ==> ms[i].role != ms[i + 1].role
  }

  /**
   * One step of the panel's loop: merge `m` into the last block when the
   * speaker is the same (appending a space and its text), otherwise start a
   * new block holding a copy of `m`.
   */
  function Push(grouped: seq<SavedMessage>, m: SavedMessage): seq<SavedMessage> {
    if |grouped| > 0 && grouped[|grouped| - 1].role == m.role then
      var last := grouped[|grouped| - 1];
      grouped[..|grouped| - 1] + [last.(content := last.content + " " + m.content)]
    else
      grouped + [m]
  }

  /** The blocks the panel shows for the stored messages `ms`. */
  function Group(ms: seq<SavedMessage>): (g: seq<SavedMessage>)
    ensures |g| <= |ms|
    ensures |g| == 0 <==> |ms| == 0
    ensures |ms| > 0 ==> g[|g| - 1].role == ms[|ms| - 1].role
    ensures NoAdjacentSameRole(g)
  {
    if |ms| == 0 then [] else Push(Group(ms[..|ms| - 1]), ms[|ms| - 1])
  }

  /** The panel's `forEach` loop over the stored messages, building fresh blocks. */
  method GroupMessages(messages: seq<SavedMessage>) returns (grouped: seq<SavedMessage>)
    ensures grouped == Group(messages)
    ensures NoAdjacentSameRole(grouped)
    ensures |grouped| <= |messages|
  {
    grouped := [];
    for i := 0 to |messages|
      invariant grouped == Group(messages[..i])
    {
      var msg := messages[i];
      assert messages[..i + 1][..i] == messages[..i];
      if |grouped| > 0 && grouped[|grouped| - 1].role == msg.role {
        var last := grouped[|grouped| - 1];
        grouped := grouped[..|grouped| - 1] + [last.(content := last.content + " " + msg.content)];
      } else {
        grouped := grouped + [msg];
      }
    }
    assert messages[..|messages|] == messages;
  }

  // ---------------------------------------------------------------------
  // An independent description of grouping: maximal same-speaker runs.
  // ---------------------------------------------------------------------

  /** The messages of `rs` laid end to end. */
  function Flatten(rs: seq<seq<SavedMessage>>): seq<SavedMessage> {
    if |rs| == 0 then [] else Flatten(rs[..|rs| - 1]) + rs[|rs| - 1]
  }

  /** Every message of `run` has speaker `r`. */
  predicate AllBy(run: seq<SavedMessage>, r: Role) {
    forall i :: 0 <= i < |run| ==> run[i].role == r
  }

  /**
   * `rs` cuts `ms` into its maximal runs: the runs lay out `ms` in order,
   * each is non-empty with a single speaker, and neighbouring runs have
   * different speakers.
   */
  predicate MaximalRuns(rs: seq<seq<SavedMessage>>, ms: seq<SavedMessage>) {
    && Flatten(rs) == ms
    && (forall k :: 0 <= k < |rs| ==> |rs[k]| > 0 && AllBy(rs[k], rs[k][0].role))
    && (forall k :: 0 <= k < |rs| - 1 ==> rs[k][0].role != rs[k + 1][0].role)
  }

  /** All runs are non-empty. */
  predicate NonEmptyRuns(rs: seq<seq<SavedMessage>>) {
    forall k :: 0 <= k < |rs| ==> |rs[k]| > 0
  }

  /** The texts of `run`, in order. */
  function Contents(run: seq<SavedMessage>): seq<string> {
    seq(|run|, i requires 0 <= i < |run| => run[i].content)
  }

  /** One block for a run: its speaker and its texts joined by single spaces. */
  function Merge(run: seq<SavedMessage>): SavedMessage
    requires |run| > 0
  {
    SavedMessage(run[0].role, Text.Join(Contents(run), ' '))
  }

  /** One block per run. */
  function MergeAll(rs: seq<seq<SavedMessage>>): seq<SavedMessage>
    requires NonEmptyRuns(rs)
  {
    seq(|rs|, k requires 0 <= k < |rs| => Merge(rs[k]))
  }

  /** Cuts `ms` into its maximal same-speaker runs. */
  function Runs(ms: seq<SavedMessage>): (rs: seq<seq<SavedMessage>>)
    ensures NonEmptyRuns(rs)
  {
    if |ms| == 0 then []
    else
      var rs := Runs(ms[..|ms| - 1]);
      var m := ms[|ms| - 1];
      if |rs| > 0 && rs[|rs| - 1][0].role == m.role then
        rs[..|rs| - 1] + [rs[|rs| - 1] + [m]]
      else
        rs + [[m]]
  }

  /** Replacing the last run extends the flattening by the new last run. */
  lemma FlattenReplaceLast(rs: seq<seq<SavedMessage>>, x: seq<SavedMessage>)
    requires |rs| > 0
    ensures Flatten(rs[..|rs| - 1] + [x]) == Flatten(rs[..|rs| - 1]) + x
  {
    var t := rs[..|rs| - 1] + [x];
    assert t[..|t| - 1] == rs[..|rs| - 1];
  }

  /** Appending a run extends the flattening by that run. */
  lemma FlattenSnoc(rs: seq<seq<SavedMessage>>, x: seq<SavedMessage>)
    ensures Flatten(rs + [x]) == Flatten(rs) + x
  {
    assert (rs + [x])[..|rs|] == rs;
  }

  /** A message by a new speaker opens a new run. */
  lemma RunsOpen(rs: seq<seq<SavedMessage>>, ms: seq<SavedMessage>, m: SavedMessage)
    requires MaximalRuns(rs, ms)
    requires |rs| > 0 ==> rs[|rs| - 1][0].role != m.role
    ensures MaximalRuns(rs + [[m]], ms + [m])
  {
    FlattenSnoc(rs, [m]);
  }

  /** A message by the last run's speaker extends that run. */
  lemma RunsExtend(rs: seq<seq<SavedMessage>>, ms: seq<SavedMessage>, m: SavedMessage)
    requires MaximalRuns(rs, ms)
    requires |rs| > 0 && rs[|rs| - 1][0].role == m.role
    ensures MaximalRuns(rs[..|rs| - 1] + [rs[|rs| - 1] + [m]], ms + [m])
  {
    var last := rs[|rs| - 1];
    FlattenReplaceLast(rs, last + [m]);
    assert rs[..|rs| - 1] + [last] == rs;
    FlattenReplaceLast(rs, last);
  }

  /** Every message sequence has a cut into maximal runs. */
  lemma {:induction false} RunsAreMaximal(ms: seq<SavedMessage>)
    ensures MaximalRuns(Runs(ms), ms)
  {
    if |ms| > 0 {
      var prefix := ms[..|ms| - 1];
      var m := ms[|ms| - 1];
      var rs: seq<seq<SavedMessage>> := Runs(prefix);
      RunsAreMaximal(prefix);
      assert prefix + [m] == ms;
      if |rs| > 0 && rs[|rs| - 1][0].role == m.role {
        RunsExtend(rs, prefix, m);
      } else {
        RunsOpen(rs, prefix, m);
      }
    }
  }

  /** A cut into non-empty runs has no more runs than messages. */
  lemma {:induction false} FlattenLength(rs: seq<seq<SavedMessage>>)
    requires NonEmptyRuns(rs)
    ensures |Flatten(rs)| >= |rs|
  {
    if |rs| > 0 {
      FlattenLength(rs[..|rs| - 1]);
    }
  }

  /** Removing a last run of one message leaves a cut of the preceding messages. */
  lemma RunsDropSingle(rs: seq<seq<SavedMessage>>, ms: seq<SavedMessage>)
    requires MaximalRuns(rs, ms)
    requires |rs| > 0 && |rs[|rs| - 1]| == 1
    ensures |ms| > 0 && rs[|rs| - 1] == [ms[|ms| - 1]]
    ensures rs == rs[..|rs| - 1] + [[ms[|ms| - 1]]]
    ensures MaximalRuns(rs[..|rs| - 1], ms[..|ms| - 1])
    ensures |rs| > 1 ==> rs[|rs| - 2][0].role != ms[|ms| - 1].role
  {
    assert Flatten(rs) == Flatten(rs[..|rs| - 1]) + rs[|rs| - 1];
  }

  /** Removing the last message of a longer last run leaves a cut of the preceding messages. */
  lemma RunsShrink(rs: seq<seq<SavedMessage>>, ms: seq<SavedMessage>)
    requires MaximalRuns(rs, ms)
    requires |rs| > 0 && |rs[|rs| - 1]| > 1
    ensures |ms| > 0
    ensures rs[|rs| - 1] == rs[|rs| - 1][..|rs[|rs| - 1]| - 1] + [ms[|ms| - 1]]
    ensures MaximalRuns(rs[..|rs| - 1] + [rs[|rs| - 1][..|rs[|rs| - 1]| - 1]], ms[..|ms| - 1])
    ensures rs[|rs| - 1][0].role == ms[|ms| - 1].role
    ensures rs == rs[..|rs| - 1] + [rs[|rs| - 1][..|rs[|rs| - 1]| - 1] + [ms[|ms| - 1]]]
  {
    var last := rs[|rs| - 1];
    var shorter := last[..|last| - 1];
    assert Flatten(rs) == Flatten(rs[..|rs| - 1]) + last;
    FlattenReplaceLast(rs, shorter);
    assert last == shorter + [last[|last| - 1]];
    assert rs == rs[..|rs| - 1] + [last];
  }

  /** The texts of a run with one more message at its end. */
  lemma ContentsSnoc(run: seq<SavedMessage>, m: SavedMessage)
    ensures Contents(run + [m]) == Contents(run) + [m.content]
  {
  }

  /** Merging a run extended by `m` is merging the run, then appending a space and `m`'s text. */
  lemma MergeSnoc(run: seq<SavedMessage>, m: SavedMessage)
    requires |run| > 0
    ensures Merge(run + [m]) == Merge(run).(content := Merge(run).content + " " + m.content)
  {
    ContentsSnoc(run, m);
    Text.JoinSnoc(Contents(run), m.content, ' ');
  }

  /** A message by a new speaker adds one block, the merge of its own run. */
  lemma PushOpens(rs: seq<seq<SavedMessage>>, m: SavedMessage)
    requires NonEmptyRuns(rs)
    requires |rs| > 0 ==> rs[|rs| - 1][0].role != m.role
    ensures Push(MergeAll(rs), m) == MergeAll(rs + [[m]])
  {
    assert Merge([m]) == m;
  }

  /** A message by the last run's speaker merges into the last block. */
  lemma PushExtends(rs: seq<seq<SavedMessage>>, m: SavedMessage)
    requires NonEmptyRuns(rs)
    requires |rs| > 0 && rs[|rs| - 1][0].role == m.role
    ensures Push(MergeAll(rs), m) == MergeAll(rs[..|rs| - 1] + [rs[|rs| - 1] + [m]])
  {
    MergeSnoc(rs[|rs| - 1], m);
  }

  /** The case of a last run of one message, given the statement for the preceding messages. */
  lemma GroupStepSingle(ms: seq<SavedMessage>, rs': seq<seq<SavedMessage>>, m: SavedMessage)
    requires NonEmptyRuns(rs')
    requires Group(ms) == MergeAll(rs')
    requires |rs'| > 0 ==> rs'[|rs'| - 1][0].role != m.role
    ensures Group(ms + [m]) == MergeAll(rs' + [[m]])
  {
    GroupSnoc(ms, m);
    PushOpens(rs', m);
  }

  /** The case of a longer last run, given the statement for the preceding messages. */
  lemma GroupStepShrink(ms: seq<SavedMessage>, rs': seq<seq<SavedMessage>>, m: SavedMessage)
    requires NonEmptyRuns(rs')
    requires Group(ms) == MergeAll(rs')
    requires |rs'| > 0 && rs'[|rs'| - 1][0].role == m.role
    ensures Group(ms + [m]) == MergeAll(rs'[..|rs'| - 1] + [rs'[|rs'| - 1] + [m]])
  {
    GroupSnoc(ms, m);
    PushExtends(rs', m);
  }

  /** A cut of no messages has no runs. */
  lemma RunsOfNothing(rs: seq<seq<SavedMessage>>)
    requires MaximalRuns(rs, [])
    ensures rs == []
  {
    FlattenLength(rs);
  }

  /**
   * Grouping is merging maximal runs: for any cut of `ms` into maximal
   * same-speaker runs, the k-th block has the k-th run's speaker and the
   * run's texts, in order, joined by single spaces.
   */
  lemma {:induction false} GroupMergesRuns(ms: seq<SavedMessage>, rs: seq<seq<SavedMessage>>)
    requires MaximalRuns(rs, ms)
    ensures Group(ms) == MergeAll(rs)
    decreases |ms|
  {
    if |ms| == 0 {
      RunsOfNothing(rs);
    } else {
      var k := |rs| - 1;
      var prefix := ms[..|ms| - 1];
      var m := ms[|ms| - 1];
      assert prefix + [m] == ms;
      if |rs[k]| == 1 {
        RunsDropSingle(rs, ms);
        var rs': seq<seq<SavedMessage>> := rs[..k];
        GroupMergesRuns(prefix, rs');
        GroupStepSingle(prefix, rs', m);
      } else {
        RunsShrink(rs, ms);
        var shorter := rs[k][..|rs[k]| - 1];
        var rs': seq<seq<SavedMessage>> := rs[..k] + [shorter];
        GroupMergesRuns(prefix, rs');
        GroupStepShrink(prefix, rs', m);
        assert rs'[..k] == rs[..k];
        assert rs'[..k] + [rs'[k] + [m]] == rs;
      }
    }
  }

  /** Grouping, stated against the runs computed by `Runs`. */
  lemma GroupIsMergedRuns(ms: seq<SavedMessage>)
    ensures Group(ms) == MergeAll(Runs(ms))
  {
    RunsAreMaximal(ms);
    GroupMergesRuns(ms, Runs(ms));
  }

  // ---------------------------------------------------------------------
  // Speaker sequence and idempotence.
  // ---------------------------------------------------------------------

  /** The speakers of `ms`, in order. */
  function Roles(ms: seq<SavedMessage>): seq<Role> {
    seq(|ms|, i requires 0 <= i < |ms| => ms[i].role)
  }

  /** `rs` with every run of equal consecutive entries reduced to one entry. */
  function Collapse(rs: seq<Role>): seq<Role> {
    if |rs| == 0 then []
    else
      var c := Collapse(rs[..|rs| - 1]);
      if |c| > 0 && c[|c| - 1] == rs[|rs| - 1] then c else c + [rs[|rs| - 1]]
  }

  /** The blocks' speakers are the messages' speakers with consecutive repeats collapsed. */
  lemma {:induction false} GroupRoles(ms: seq<SavedMessage>)
    ensures Roles(Group(ms)) == Collapse(Roles(ms))
  {
    if |ms| > 0 {
      var prefix := ms[..|ms| - 1];
      var m := ms[|ms| - 1];
      var g := Group(prefix);
      GroupRoles(prefix);
      assert Roles(ms)[..|ms| - 1] == Roles(prefix);
      assert Roles(ms)[|ms| - 1] == m.role;
      var c := Collapse(Roles(prefix));
      assert Collapse(Roles(ms)) == if |c| > 0 && c[|c| - 1] == m.role then c else c + [m.role];
      assert Group(ms) == Push(g, m);
      PushRoles(g, m);
    }
  }

  /** Pushing a message adds its speaker unless the last block already has it. */
  lemma PushRoles(g: seq<SavedMessage>, m: SavedMessage)
    ensures var r := Roles(g);
      Roles(Push(g, m)) == if |r| > 0 && r[|r| - 1] == m.role then r else r + [m.role]
  {
  }

  /** Messages that already alternate speakers are shown unchanged. */
  lemma {:induction false} GroupOfAlternating(ms: seq<SavedMessage>)
    requires NoAdjacentSameRole(ms)
    ensures Group(ms) == ms
  {
    if |ms| > 0 {
      var prefix := ms[..|ms| - 1];
      assert NoAdjacentSameRole(prefix);
      GroupOfAlternating(prefix);
      var m := ms[|ms| - 1];
      if |prefix| > 0 {
        assert prefix[|prefix| - 1].role != m.role;
      }
      assert Push(prefix, m) == prefix + [m];
      assert Group(ms) == Push(Group(prefix), m);
      assert prefix + [m] == ms;
    }
  }

  /** Grouping already grouped blocks changes nothing. */
  lemma GroupIdempotent(ms: seq<SavedMessage>)
    ensures Group(Group(ms)) == Group(ms)
  {
    GroupOfAlternating(Group(ms));
  }

  /** A message arriving after the others only affects the last block or adds one. */
  lemma GroupSnoc(ms: seq<SavedMessage>, m: SavedMessage)
    ensures Group(ms + [m]) == Push(Group(ms), m)
  {
    assert (ms + [m])[..|ms|] == ms;
  }

  /** A user line followed by two assistant lines is shown as two blocks. */
  lemma GroupExample()
    ensures Group([SavedMessage(User, "Hi"), SavedMessage(Assistant, "Hello"), SavedMessage(Assistant, "how are you")])
         == [SavedMessage(User, "Hi"), SavedMessage(Assistant, "Hello how are you")]
  {
    var ms := [SavedMessage(User, "Hi"), SavedMessage(Assistant, "Hello"), SavedMessage(Assistant, "how are you")];
    assert ms[..2][..1] == [ms[0]];
    assert ms[..2] == [ms[0], ms[1]];
    assert Group([ms[0]]) == [ms[0]];
    assert Group(ms[..2]) == [ms[0], ms[1]];
    assert Group(ms) == Push([ms[0], ms[1]], ms[2]);
    assert "Hello" + " " + "how are you" == "Hello how are you";
  }
}

=== FILE: wrappers.dfy ===
/** Small failure-carrying datatypes shared by the other modules. */
module Wrappers {

  /** A value that may be absent (`undefined` in the application). */
  datatype Option<+T> = None | Some(value: T) {

    /** The carried value, or `default` when absent. */
    function GetOr(default: T): T {
      match this
      case Some(v) => v
      case None => default
    }
  }

  /** Either a checked value or the errors that rejected it. */
  datatype Result<+R, +E> = Success(value: R) | Failure(error: E)

  /** How an awaited call into an outside service ended: it threw, or it returned a value. */
  datatype Completion<+T> = Threw | Returned(value: T)
}
